=== FILE: README.md ===
# KD monitor: a Dafny model of `stock_monitor.py`

`stock_monitor.py` is a daily job that reads a list of stocks from a text
file and downloads three months of prices for them. For every stock it
computes the slow stochastic oscillator (%K and %D) and writes a report
block. It then sends the joined report, optionally preceded by an AI
summary, as a push notification.

This project models the job's decision logic as pure Dafny functions:

- **StockList** reads the configuration file. Each line is stripped, and
  blank lines and `#` comments are skipped. The rest is split on commas,
  every field is stripped, and only five fields with three integer periods
  are accepted. An unreadable file and a file with no accepted line are the
  two fatal outcomes.
- **Kd** computes the values. Incomplete rows are dropped, and at least 20
  clean rows are required. The oscillator runs, and the latest and previous
  %K, %D and close are read. When the latest %K or %D is NaN, every read
  steps back exactly one day, and only the shifted %K is checked again.
- **Percent** computes the change label: `" (N/A)"` for a zero or missing
  previous value or a missing current value, otherwise a signed percentage
  of the previous value's magnitude. NaN passes through unguarded.
- **Report** holds the overbought/oversold markers (strictly above 80,
  strictly below 20) and the per-ticker loop of `main`. Each ticker gives a
  download-error block, a calculation-failure block or a quote block. It
  also holds the `stock_info` dictionary, in which the last entry for a
  repeated ticker wins, and the composition of the final message and of a
  whole run.
- **Text**, **IntLiteral**, **Sequences**, **Floats** and **Wrappers** supply
  the Python pieces these need:
  - `str.strip` with Python's `isspace` set;
  - `split(',')` and `join`;
  - the integer literals `int()` accepts here;
  - `dropna`-style filtering;
  - NaN-aware floats, in which every comparison with NaN is false;
  - Option and Result.

Some parts of the job are parameters of the model:

- `talib.STOCH` is a function from bars and periods to an optional pair of
  series, where `None` stands for an exception.
- The summary service is a function from key and context to an optional
  string.
- The batch download is `NoData` (`all_data.empty`) or a map from ticker to
  rows.
- The float renderings `:.2f`, `:,.2f` and `:+.1f` are the abstract
  functions in `Report.Numerals`. The sign character of a change label is
  modelled exactly.

## Model

| member | source | states |
|---|---|---|
| Text.Strip | stock_monitor.py:25 | the stripped line is empty or begins and ends with a non-whitespace character |
| Text.StripRemovesSpace | stock_monitor.py:25 | `strip()` removes only whitespace, and only from the two ends: the result is a slice of the input with whitespace on both sides |
| Text.StripEmpty | stock_monitor.py:25-26 | a line strips to the empty string exactly when it is all whitespace |
| Text.StripIdempotent | stock_monitor.py:25 | stripping twice is the same as stripping once |
| Text.StripKeepsCount | stock_monitor.py:25-29 | stripping never adds or removes a comma |
| Text.Split | stock_monitor.py:29 | `split(',')` gives at least one piece, no piece contains a comma, and joining the pieces with commas restores the line |
| Text.SplitCount | stock_monitor.py:29-30 | a line splits into one more piece than it has commas |
| Text.SplitJoin | stock_monitor.py:29 | splitting comma-free parts joined by commas gives the parts back |
| IntLiteral.ParseInt | stock_monitor.py:35 | a field parses exactly when it is a non-empty run of digits, or a `+` or `-` followed by one; a negative value needs a leading `-` |
| IntLiteral.ParseIntValue | stock_monitor.py:35 | a run of digits parses to its decimal value (`DigitsValue`), negated after `-`; a `+` and a leading zero leave the value unchanged |
| IntLiteral.ParseFormat | stock_monitor.py:35 | reading back the decimal rendering of any integer gives that integer |
| StockList.ParseLine | stock_monitor.py:25-42 | an accepted line yields a name and a ticker that are stripped and comma-free |
| StockList.ParseFields | stock_monitor.py:29-42 | a line is rejected for its field count exactly when it has not five fields; it is accepted exactly when it has five fields and fields 3-5 all parse as integers, so a line with a non-integer period is skipped; an accepted entry takes its name and ticker from the first two fields and its periods are the parsed values of fields 3-5 |
| StockList.ParseLineSkips | stock_monitor.py:25-27 | a line is skipped as blank exactly when it is all whitespace, and as a comment exactly when its first visible character is `#` |
| StockList.ParseLineFieldCount | stock_monitor.py:29-30 | a visible non-comment line is rejected for its field count exactly when it does not hold four commas; the field count reported is commas + 1 |
| StockList.ParseFormatLine | stock_monitor.py:25-36 | the line `name, ticker, fastk, slowk, slowd` written for any expressible entry is read back as that entry |
| StockList.LoadStockList | stock_monitor.py:21-58 | an unreadable file is fatal; the file is rejected exactly when no line is accepted; otherwise the result is the non-empty list of accepted entries in file order |
| StockList.LoadedEntries | stock_monitor.py:29-36 | an entry is among the accepted entries (the loaded list, when loading succeeds) exactly when some line of the file is accepted as that entry |
| StockList.AcceptedLinesAppend | stock_monitor.py:24-42 | lines are judged independently: the entries of a file are those of its first part followed by those of the rest |
| Kd.AlignKeepsComplete | stock_monitor.py:82-86 | cleaning (`Kd.Align`, the `dropna`) keeps a bar exactly when some row carries all three of its prices |
| Kd.AlignComplete | stock_monitor.py:82-86 | a frame without missing prices keeps every row, in place |
| Kd.AlignAppend | stock_monitor.py:82-86 | cleaning two stretches of history gives the clean rows of each, in time order |
| Kd.SelectKd | stock_monitor.py:111-141 | selection succeeds exactly when the latest values are usable or the one-day-earlier %K is a number; the values are those of the last day or of the day before; the %K handed back is never NaN; "too short to compare" is reported exactly when %K or close has fewer than two values |
| Kd.CalculateKd | stock_monitor.py:82-145 | no clean rows and fewer than 20 clean rows are the two early failures; with enough rows, an oscillator that raises gives a failure; on success %K is a number, there were at least 20 clean rows, and the prices are the last two closes or the two before them |
| Kd.LatestPath | stock_monitor.py:116-121 | with usable latest values the result is the last two values of each series |
| Kd.FallbackPath | stock_monitor.py:124-135 | with a NaN in the latest %K or %D the result is the window one day back, or a failure exactly when the shifted %K is NaN |
| Kd.SelectLooksBackOneDay | stock_monitor.py:116-132 | only the last three values of each series affect the selection |
| Kd.ShiftedDNotChecked | stock_monitor.py:127-135 | after the shift a NaN %D is handed back, because only %K is rechecked |
| Percent.PercentChange | stock_monitor.py:179-183 | not applicable exactly for a zero or missing previous value or a missing current value; NaN exactly when an input is NaN; otherwise the percentage times the previous magnitude equals 100 times the difference |
| Percent.PercentSign | stock_monitor.py:183 | the percentage is positive, negative or zero exactly as the current value is above, below or equal to the previous one |
| Report.Classify | stock_monitor.py:333-343 | a value is overbought exactly when above 80 and oversold exactly when below 20; NaN and values in [20, 80] are neither |
| Report.KMarkerExtendsDMarker | stock_monitor.py:333-343 | the %K marker is the %D marker followed by the zone's name in parentheses, and is empty exactly in the neutral zone |
| Report.LabelSign | stock_monitor.py:183-186 | the label (`Report.LabelText`) is `" "`, a sign, the digits and `%`; the sign is `+` exactly for a rise or no change and `-` exactly for a fall |
| Report.KLineMarks | stock_monitor.py:332-336 | the %K line ends with the overbought marker exactly when %K is above 80, and with the oversold marker exactly when it is below 20 |
| Report.DLineMarks | stock_monitor.py:338-342 | the %D line ends with the overbought sign exactly when %D is above 80, and with the oversold sign exactly when it is below 20 |
| Report.QuoteBodyLines | stock_monitor.py:328-348 | a quote body (`Report.BodyText`) splits at line breaks into exactly the price line (`Report.PriceLine`), the %K line (`Report.KLine`) and the %D line (`Report.DLine`), in that order, provided the number renderings contain no line break |
| Report.BlockText | stock_monitor.py:351-354 | every block begins with its header line |
| Report.BlockLines | stock_monitor.py:293-354 | a block splits at line breaks into its header followed by its body's lines (`Report.BodyLines`): the download-error text, the calculation-failure text, or the price, %K and %D lines, provided the name, the ticker and the number renderings hold no line break |
| Report.StockInfo | stock_monitor.py:266-268 | every configured ticker is a key of the dictionary |
| Report.StockInfoKeys | stock_monitor.py:266-268 | the dictionary's keys are exactly the configured tickers |
| Report.StockInfoLastWins | stock_monitor.py:266-268 | each ticker maps to the name and periods of the last entry that uses it |
| Report.StockInfoDistinct | stock_monitor.py:266-268 | with no repeated ticker, every ticker maps to its own entry |
| Report.BlockFor | stock_monitor.py:282-355 | the block carries the ticker and its dictionary name; it is a download error exactly when the ticker has no data, a calculation failure exactly when the computation fails, and otherwise shows the computed values |
| Report.BuildBlocks | stock_monitor.py:282-355 | one block per ticker, in ticker order |
| Report.ReportBlocks | stock_monitor.py:264-355 | one block per configured entry, in file order, each for that entry's ticker, however the other tickers fared |
| Report.ReportBlocksDistinct | stock_monitor.py:264-355 | with no repeated ticker, each block shows its own entry's name and values computed with its own entry's periods |
| Text.JoinEnds | stock_monitor.py:366 | `join` (`Text.Join`) puts the first part at the start of the joined text and the last part at its end |
| Report.DataReportSnoc | stock_monitor.py:366 | in the data report (`Report.DataReport`), appending a block appends a blank line and the block's text to the report |
| Report.FinalMessage | stock_monitor.py:368-380 | without a summary the message is the data report; it always ends with the data report; with a summary it starts with the summary header, the summary and a newline, and ends with the details banner followed by the data report |
| Report.Run | stock_monitor.py:243-382 | missing secrets stop the run; an empty download sends the fixed alert; no blocks sends nothing; otherwise the notification goes to the topic under the fixed title, and its message is the final message composed from the data report and the summary |
| Report.DeliveredMessage | stock_monitor.py:358-382 | a delivered message ends with the data report, is just that report when there is no summary, and otherwise starts with the summary header and the summary and ends with the details banner and the report |

## Left out

- The network is left out. The batch download (`yf.download`), the ntfy
  POST and the OpenAI request are parameters (`Download`, `Notice`,
  `summarize`), and so are their failures. The prompt text and the summary
  service's error handling (lines 188-235) are not modelled.
- `talib.STOCH` is not modelled: the oscillator is a parameter. `WellShaped`
  states the one-value-per-bar shape the library gives, as an assumption
  of the path lemmas.
- Float formatting is abstract. `:.2f`, `:,.2f` and the digits of `:+.1f`
  are the functions in `Numerals`, so rounding is not modelled.
- Floating-point arithmetic is modelled with exact reals plus NaN.
  Infinities, overflow and rounding of `(current - previous) / abs(previous)`
  are left out.
- Printing, logging and `sys.exit` are left out. The exits are outcomes
  instead: `LoadError`, `MissingSecrets` and `NoMarketData`.
- The summary service is called before the run checks for an empty block
  list. The model has no side effects, so this call order is not
  represented.
- Report.BlockFor: the lookup of a ticker's columns is a map lookup.
  - pandas' column layout is not modelled. That includes the single-ticker
    branch (lines 300-311), which reads flat columns and so never fails
    for a missing ticker.
  - The index alignment done by `pd.DataFrame` over series that share the
    download's index is not modelled.
- IntLiteral.ParseInt: accepts only an optional sign followed by ASCII
  digits. Python's `int()` also accepts underscores between digits and
  non-ASCII decimal digits. The model also puts no bound on the number of
  digits. Current CPython raises `ValueError` for a decimal string longer
  than `sys.get_int_max_str_digits()` (4300 by default), which skips such a
  line at lines 37-38.
- Text.IsSpace: uses Python's `str.isspace` set of characters. Universal
  newline translation on reading is not modelled; lines are given already
  split.
- StockList.LoadStockList: an unreadable file, whether missing or failing
  with another error, is a single `Unreadable` outcome.
- StockList.ParseFields: the generic `except Exception` of line 39 is not
  modelled. Nothing in the accepted path can raise anything but
  `ValueError`.

=== FILE: floats.dfy ===
/** Floating-point values as the monitor sees them: a number or not-a-number.
    Infinities and rounding are not modelled; a present number is a mathematical real. */
module Floats {

  datatype Val = NaN | Num(r: real)

  /** `np.isnan(v)` */
  predicate IsNaN(v: Val) {
    v.NaN?
  }

  /** Python's `v > t` for a float against a numeric constant: false for NaN. */
  predicate Above(v: Val, t: real) {
    v.Num? && v.r > t
  }

  /** Python's `v < t` for a float against a numeric constant: false for NaN. */
  predicate Below(v: Val, t: real) {
    v.Num? && v.r < t
  }
}

=== FILE: int_literal.dfy ===
/** Decimal integer literals as the configuration reader accepts them through
    Python's `int(...)`, and their canonical rendering. */
module IntLiteral {
  import opened Wrappers

  predicate IsDigit(c: char) {
    '0' <= c <= '9'
  }

  predicate AllDigits(s: string) {
    forall i | 0 <= i < |s| :: IsDigit(s[i])
  }

  function DigitValue(c: char): (d: nat)
    requires IsDigit(c)
    ensures d < 10
  {
    (c as int) - ('0' as int)
  }

  function DigitChar(d: nat): (c: char)
    requires d < 10
    ensures IsDigit(c) && DigitValue(c) == d
  {
    (('0' as int) + d) as char
  }

  /** The value of a run of decimal digits, most significant first. */
  function DigitsValue(s: string): nat
    requires AllDigits(s)
  {
    if |s| == 0 then 0 else DigitsValue(s[..|s| - 1]) * 10 + DigitValue(s[|s| - 1])
  }

  /** `int(s)` for a string that has already been stripped: an optional `+`
      or `-` followed by at least one ASCII digit; anything else is the
      `ValueError` path. */
  function ParseInt(s: string): (r: Option<int>)
    ensures r.Some? <==>
      || (|s| > 0 && AllDigits(s))
      || (|s| > 1 && (s[0] == '+' || s[0] == '-') && AllDigits(s[1..]))
    ensures r.Some? ==> (r.value < 0 ==> s[0] == '-')
    ensures r.Some? && IsDigit(s[0]) ==> r.value >= 0
    ensures |s| > 0 && AllDigits(s) ==> r.Some?
  {
    if |s| > 0 && (s[0] == '+' || s[0] == '-') then
      var digits := s[1..];
      if |digits| > 0 && AllDigits(digits) then
        var n: int := DigitsValue(digits);
        Some(if s[0] == '-' then -n else n)
      else None
    else if |s| > 0 && AllDigits(s) then Some(DigitsValue(s))
    else None
  }

  /** The shortest decimal rendering of a natural number, as `str(n)`. */
  function FormatNat(n: nat): (s: string)
    ensures |s| > 0 && AllDigits(s)
    ensures s[0] == '0' ==> n == 0
  {
    if n < 10 then [DigitChar(n)] else FormatNat(n / 10) + [DigitChar(n % 10)]
  }

  /** `str(n)` for an integer: a minus sign for negative values only. */
  function FormatInt(n: int): (s: string)
    ensures |s| > 0 && (s[0] == '-' <==> n < 0)
    ensures s[0] == '-' || IsDigit(s[0])
    ensures forall i | 0 < i < |s| :: IsDigit(s[i])
  {
    if n < 0 then "-" + FormatNat(-n) else FormatNat(n)
  }

  /** Reading back the digits of `str(n)` gives `n`. */
  lemma {:induction false} FormatNatValue(n: nat)
    ensures DigitsValue(FormatNat(n)) == n
  {
    var s := FormatNat(n);
    if n >= 10 {
      FormatNatValue(n / 10);
      assert s[..|s| - 1] == FormatNat(n / 10);
    }
  }

  /** `int(str(n)) == n` for every integer. */
  lemma ParseFormat(n: int)
    ensures ParseInt(FormatInt(n)) == Some(n)
  {
    var s := FormatInt(n);
    if n < 0 {
      assert s[1..] == FormatNat(-n);
      FormatNatValue(-n);
    } else {
      FormatNatValue(n);
    }
  }

  /** A leading zero does not change the value of a run of digits. */
  lemma {:induction false} DigitsValueLeadingZero(s: string)
    requires AllDigits(s)
    ensures AllDigits("0" + s) && DigitsValue("0" + s) == DigitsValue(s)
    decreases |s|
  {
    var t := "0" + s;
    if |s| > 0 {
      assert t[..|t| - 1] == "0" + s[..|s| - 1];
      DigitsValueLeadingZero(s[..|s| - 1]);
    } else {
      assert DigitsValue(t) == DigitsValue(t[..0]) * 10 + DigitValue('0');
    }
  }

  /** The value `int()` gives a run of digits with or without a sign: the
      digits' decimal value, negated after `-`; a `+` and leading zeros
      change nothing. */
  lemma ParseIntValue(s: string)
    requires |s| > 0 && AllDigits(s)
    ensures ParseInt(s) == Some(DigitsValue(s))
    ensures ParseInt("+" + s) == ParseInt(s)
    ensures ParseInt("-" + s) == Some(-(DigitsValue(s) as int))
    ensures ParseInt("0" + s) == ParseInt(s)
  {
    ParseIntSigned(s, '+');
    ParseIntSigned(s, '-');
    ParseIntDigits(s);
    DigitsValueLeadingZero(s);
    ParseIntDigits("0" + s);
  }

  lemma ParseIntDigits(s: string)
    requires |s| > 0 && AllDigits(s)
    ensures ParseInt(s) == Some(DigitsValue(s))
  {
    assert IsDigit(s[0]);
  }

  lemma ParseIntSigned(s: string, sign: char)
    requires |s| > 0 && AllDigits(s) && (sign == '+' || sign == '-')
    ensures ParseInt([sign] + s) == Some(if sign == '-' then -(DigitsValue(s) as int) else DigitsValue(s))
  {
    var t := [sign] + s;
    assert t[0] == sign && t[1..] == s;
  }
}

=== FILE: kd.dfy ===
/** `calculate_kd_from_data`: clean the three price series, require enough
    history, run the stochastic oscillator, and pick the latest and previous
    %K, %D and close, stepping back at most one day when the latest
    oscillator value is not a number. */
module Kd {
  import opened Wrappers
  import opened Floats
  import opened Sequences
  import opened StockList

  /** One time step of the downloaded frame; any of the three prices may be
      missing (NaN). */
  datatype Row = Row(high: Val, low: Val, close: Val)

  /** A time step with all three prices present. */
  datatype Bar = Bar(high: real, low: real, close: real)

  /** What the oscillator returns: the slow %K and slow %D series. */
  datatype StochOut = StochOut(k: seq<Val>, d: seq<Val>)

  /** The six values handed back on success. */
  datatype KdValues = KdValues(k: Val, d: Val, prevK: Val, prevD: Val, price: real, prevPrice: real)

  /** Why no values are available; the caller sees all of them as `(None,) * 6`. */
  datatype KdFailure =
    | EmptyAfterCleaning
    | TooFewRows(count: nat)
    | TooShortToCompare
    | NoRoomForFallback
    | FallbackStillNaN
    | Raised

  /** Rows needed before the oscillator is computed at all. */
  const RequiredLookback: nat := 20

  /** The row as a bar, when none of its prices is missing. */
  function BarOf(row: Row): Option<Bar> {
    if row.high.Num? && row.low.Num? && row.close.Num?
    then Some(Bar(row.high.r, row.low.r, row.close.r))
    else None
  }

  /** `DataFrame({High, Low, Close}).dropna()`: the complete rows, in time
      order. */
  function Align(rows: seq<Row>): seq<Bar> {
    FilterMap(rows, BarOf)
  }

  /** Cleaning keeps a bar exactly when some row has all three prices and
      they are that bar's. */
  lemma AlignKeepsComplete(rows: seq<Row>, b: Bar)
    ensures b in Align(rows) <==> exists i | 0 <= i < |rows| :: rows[i] == Row(Num(b.high), Num(b.low), Num(b.close))
  {
    FilterMapMember(rows, BarOf, b);
    if exists i | 0 <= i < |rows| :: BarOf(rows[i]) == Some(b) {
      var i :| 0 <= i < |rows| && BarOf(rows[i]) == Some(b);
      assert rows[i] == Row(Num(b.high), Num(b.low), Num(b.close));
    }
    if exists i | 0 <= i < |rows| :: rows[i] == Row(Num(b.high), Num(b.low), Num(b.close)) {
      var i :| 0 <= i < |rows| && rows[i] == Row(Num(b.high), Num(b.low), Num(b.close));
      assert BarOf(rows[i]) == Some(b);
    }
  }

  /** A frame without missing prices loses no row to cleaning. */
  lemma AlignComplete(rows: seq<Row>)
    requires forall i | 0 <= i < |rows| :: BarOf(rows[i]).Some?
    ensures |Align(rows)| == |rows|
    ensures forall i | 0 <= i < |rows| :: Some(Align(rows)[i]) == BarOf(rows[i])
  {
    FilterMapAll(rows, BarOf);
  }

  /** Cleaning works row by row: the clean rows of two stretches of history
      are the clean rows of each, in time order. */
  lemma AlignAppend(older: seq<Row>, newer: seq<Row>)
    ensures Align(older + newer) == Align(older) + Align(newer)
  {
    FilterMapAppend(older, newer, BarOf);
  }

  /** `data['Close'].to_numpy()` */
  function Closes(bars: seq<Bar>): (c: seq<real>)
    ensures |c| == |bars| && forall i | 0 <= i < |bars| :: c[i] == bars[i].close
  {
    seq(|bars|, i requires 0 <= i < |bars| => bars[i].close)
  }

  /** Neither the latest %K nor the latest %D is NaN. */
  predicate LatestUsable(k: seq<Val>, d: seq<Val>)
    requires |k| > 0 && |d| > 0
  {
    !IsNaN(k[|k| - 1]) && !IsNaN(d[|d| - 1])
  }

  /** The six values read `shift` days before the end of the series. */
  function Window(k: seq<Val>, d: seq<Val>, close: seq<real>, shift: nat): KdValues
    requires shift + 2 <= |k| && shift + 2 <= |d| && shift + 2 <= |close|
  {
    KdValues(k[|k| - 1 - shift], d[|d| - 1 - shift], k[|k| - 2 - shift], d[|d| - 2 - shift],
             close[|close| - 1 - shift], close[|close| - 2 - shift])
  }

  /** When selection succeeds: either the latest values are usable, or there
      is a day to step back to and its %K is not NaN. */
  predicate Selectable(k: seq<Val>, d: seq<Val>, close: seq<real>) {
    || (|k| >= 2 && |d| >= 2 && |close| >= 2 && LatestUsable(k, d))
    || (|k| >= 3 && |d| >= 3 && |close| >= 3 && !LatestUsable(k, d) && !IsNaN(k[|k| - 2]))
  }

  /** Steps 4 and 5 of the calculation: read the last two values of each
      series, and when the latest %K or %D is NaN shift every read back by
      exactly one day, giving up if the shifted %K is still NaN. A series
      too short for a read raises `IndexError`, which the surrounding
      handler turns into a failure. */
  function SelectKd(k: seq<Val>, d: seq<Val>, close: seq<real>): (r: Result<KdValues, KdFailure>)
    ensures r.Success? <==> Selectable(k, d, close)
    ensures r.Success? ==> r.value == Window(k, d, close, if LatestUsable(k, d) then 0 else 1)
    ensures r.Success? ==> !IsNaN(r.value.k)
    ensures r == Failure(TooShortToCompare) <==> |k| < 2 || |close| < 2
  {
    if |k| < 2 || |close| < 2 then Failure(TooShortToCompare)
    else if |d| < 2 then Failure(Raised)
    else if IsNaN(k[|k| - 1]) || IsNaN(d[|d| - 1]) then
      if |k| > 2 && |close| > 2 then
        if |d| < 3 then Failure(Raised)
        else if IsNaN(k[|k| - 2]) then Failure(FallbackStillNaN)
        else Success(KdValues(k[|k| - 2], d[|d| - 2], k[|k| - 3], d[|d| - 3],
                              close[|close| - 2], close[|close| - 3]))
      else Failure(NoRoomForFallback)
    else Success(KdValues(k[|k| - 1], d[|d| - 1], k[|k| - 2], d[|d| - 2],
                          close[|close| - 1], close[|close| - 2]))
  }

  /** `calculate_kd_from_data`, with `talib.STOCH` passed in as `stoch`
      (`None` when it raises). */
  function CalculateKd(rows: seq<Row>, params: KdParams, stoch: (seq<Bar>, KdParams) -> Option<StochOut>)
    : (r: Result<KdValues, KdFailure>)
    ensures |Align(rows)| == 0 ==> r == Failure(EmptyAfterCleaning)
    ensures 0 < |Align(rows)| < RequiredLookback ==> r == Failure(TooFewRows(|Align(rows)|))
    ensures |Align(rows)| >= RequiredLookback && stoch(Align(rows), params).None? ==> r == Failure(Raised)
    ensures r.Success? ==> !IsNaN(r.value.k)
    ensures r.Success? ==>
      var bars := Align(rows);
      && |bars| >= RequiredLookback
      && (|| (r.value.price == bars[|bars| - 1].close && r.value.prevPrice == bars[|bars| - 2].close)
          || (r.value.price == bars[|bars| - 2].close && r.value.prevPrice == bars[|bars| - 3].close))
  {
    var bars := Align(rows);
    if |bars| == 0 then Failure(EmptyAfterCleaning)
    else if |bars| < RequiredLookback || |bars| < 3 then Failure(TooFewRows(|bars|))
    else
      match stoch(bars, params)
      case None => Failure(Raised)
      case Some(out) => SelectKd(out.k, out.d, Closes(bars))
  }

  /** The shape `talib.STOCH` gives its output: one value per input bar. */
  predicate WellShaped(out: StochOut, bars: seq<Bar>) {
    |out.k| == |bars| && |out.d| == |bars|
  }

  /** Enough clean history and a usable latest %K and %D: the result is
      exactly the last two values of each series. */
  lemma LatestPath(rows: seq<Row>, params: KdParams, stoch: (seq<Bar>, KdParams) -> Option<StochOut>)
    requires |Align(rows)| >= RequiredLookback
    requires stoch(Align(rows), params).Some? && WellShaped(stoch(Align(rows), params).value, Align(rows))
    requires LatestUsable(stoch(Align(rows), params).value.k, stoch(Align(rows), params).value.d)
    ensures CalculateKd(rows, params, stoch)
      == Success(Window(stoch(Align(rows), params).value.k, stoch(Align(rows), params).value.d,
                        Closes(Align(rows)), 0))
  {
  }

  /** A NaN in the latest %K or %D moves every read back by exactly one day;
      the result depends only on whether the shifted %K is NaN. */
  lemma FallbackPath(rows: seq<Row>, params: KdParams, stoch: (seq<Bar>, KdParams) -> Option<StochOut>)
    requires |Align(rows)| >= RequiredLookback
    requires stoch(Align(rows), params).Some? && WellShaped(stoch(Align(rows), params).value, Align(rows))
    requires !LatestUsable(stoch(Align(rows), params).value.k, stoch(Align(rows), params).value.d)
    ensures var out := stoch(Align(rows), params).value;
      CalculateKd(rows, params, stoch)
        == if IsNaN(out.k[|out.k| - 2]) then Failure(FallbackStillNaN)
           else Success(Window(out.k, out.d, Closes(Align(rows)), 1))
  {
  }

  /** Only the last three values of each series are ever read: whatever
      precedes them cannot change the outcome, so the fallback never
      reaches further back than one day. */
  lemma {:induction false} SelectLooksBackOneDay(pk: seq<Val>, pd: seq<Val>, pc: seq<real>,
                                                  k: seq<Val>, d: seq<Val>, c: seq<real>)
    requires |k| >= 3 && |d| >= 3 && |c| >= 3
    ensures SelectKd(pk + k, pd + d, pc + c) == SelectKd(k, d, c)
  {
    var k', d', c' := pk + k, pd + d, pc + c;
    assert k'[|k'| - 1] == k[|k| - 1] && k'[|k'| - 2] == k[|k| - 2] && k'[|k'| - 3] == k[|k| - 3];
    assert d'[|d'| - 1] == d[|d| - 1] && d'[|d'| - 2] == d[|d| - 2] && d'[|d'| - 3] == d[|d| - 3];
    assert c'[|c'| - 1] == c[|c| - 1] && c'[|c'| - 2] == c[|c| - 2] && c'[|c'| - 3] == c[|c| - 3];
  }

  /** After the one-day shift only %K is checked again: a NaN %D on the
      shifted day is passed on to the report. */
  lemma ShiftedDNotChecked(k: seq<Val>, d: seq<Val>, close: seq<real>)
    requires |k| >= 3 && |d| >= 3 && |close| >= 3
    requires IsNaN(k[|k| - 1]) && !IsNaN(k[|k| - 2]) && IsNaN(d[|d| - 2])
    ensures SelectKd(k, d, close).Success? && IsNaN(SelectKd(k, d, close).value.d)
  {
  }
}

=== FILE: percent.dfy ===
/** `get_percent_change_str`: the change from a previous to a current value
    as a percentage of the previous value's magnitude, or "not applicable". */
module Percent {
  import opened Wrappers
  import opened Floats

  /** The label's content: `" (N/A)"`, or a signed percentage (which is NaN
      when either input is). */
  datatype ChangeLabel = NotApplicable | Change(percent: Val)

  function Abs(x: real): (a: real)
    ensures a >= 0.0 && (a == x || a == -x)
  {
    if x < 0.0 then -x else x
  }

  /** Python's guard `previous == 0 or previous is None or current is None`,
      then `(current - previous) / abs(previous) * 100`. NaN is not caught
      by the guard and propagates through the arithmetic. */
  function PercentChange(current: Option<Val>, previous: Option<Val>): (l: ChangeLabel)
    ensures l.NotApplicable? <==> previous == Some(Num(0.0)) || previous.None? || current.None?
    ensures l.Change? ==> (IsNaN(l.percent) <==> IsNaN(current.value) || IsNaN(previous.value))
    ensures l.Change? && l.percent.Num? ==>
      l.percent.r * Abs(previous.value.r) == (current.value.r - previous.value.r) * 100.0
  {
    if previous == Some(Num(0.0)) || previous.None? || current.None? then NotApplicable
    else
      match (current.value, previous.value)
      case (Num(c), Num(p)) => Change(Num((c - p) / Abs(p) * 100.0))
      case _ => Change(NaN)
  }

  /** For two numbers with a non-zero previous value the percentage has the
      sign of the difference: up is positive, down negative, unchanged zero. */
  lemma PercentSign(c: real, p: real)
    requires p != 0.0
    ensures PercentChange(Some(Num(c)), Some(Num(p))).Change?
    ensures var pct := PercentChange(Some(Num(c)), Some(Num(p))).percent;
      && pct.Num?
      && (pct.r > 0.0 <==> c > p)
      && (pct.r < 0.0 <==> c < p)
      && (pct.r == 0.0 <==> c == p)
  {
    var a := Abs(p);
    var q := (c - p) / a;
    assert q * a == c - p;
    if c > p {
      assert q > 0.0;
    } else if c < p {
      assert q < 0.0;
    }
  }
}

=== FILE: report.dfy ===
/** The report loop and the final message of `main`: one block per
    configured ticker, each a header line and a body that is either a fixed
    failure text or the price, %K and %D lines with their change labels and
    threshold markers; the blocks joined by blank lines, optionally preceded
    by the AI summary. */
module Report {
  import opened Wrappers
  import opened Floats
  import opened Text
  import opened StockList
  import opened Kd
  import opened Percent

  // ---------------------------------------------------------------------
  // Thresholds and markers

  const OverboughtLevel: real := 80.0
  const OversoldLevel: real := 20.0

  datatype Zone = Overbought | Oversold | Neutral

  /** `if v > 80 … elif v < 20 …`, the same test for %K and %D. */
  function Classify(v: Val): (z: Zone)
    ensures z == Overbought <==> Above(v, OverboughtLevel)
    ensures z == Oversold <==> Below(v, OversoldLevel)
    ensures z == Neutral <==> v.NaN? || OversoldLevel <= v.r <= OverboughtLevel
  {
    if Above(v, OverboughtLevel) then Overbought
    else if Below(v, OversoldLevel) then Oversold
    else Neutral
  }

  const KOverboughtMark: string := " ⚠️(超買)"
  const KOversoldMark: string := " 🟢(超賣)"
  const DOverboughtMark: string := " ⚠️"
  const DOversoldMark: string := " 🟢"

  /** The text appended to the %K line. */
  function KMarker(z: Zone): string {
    match z
    case Overbought => KOverboughtMark
    case Oversold => KOversoldMark
    case Neutral => ""
  }

  /** The text appended to the %D line. */
  function DMarker(z: Zone): string {
    match z
    case Overbought => DOverboughtMark
    case Oversold => DOversoldMark
    case Neutral => ""
  }

  /** The %K marker is the %D marker followed by a parenthesised tag
      naming the zone; an unmarked value has neither. */
  lemma KMarkerExtendsDMarker(z: Zone)
    ensures KMarker(z) == DMarker(z) + (match z
                                        case Overbought => "(超買)"
                                        case Oversold => "(超賣)"
                                        case Neutral => "")
    ensures KMarker(z) == "" <==> z == Neutral
  {
  }

  // ---------------------------------------------------------------------
  // Blocks

  /** What follows a block's header line. */
  datatype Body = DownloadError | CalcFailed | Quote(values: KdValues)

  datatype Block = Block(name: string, ticker: string, body: Body)

  /** The float renderings of the f-strings, which this model leaves
      abstract: `{x:,.2f}` for the price, `{x:.2f}` for %K and %D, and the
      digits of `{x:+.1f}` without the sign. */
  datatype Numerals = Numerals(price: real -> string, twoPlaces: Val -> string, onePlace: Val -> string)

  const DownloadErrorText: string := " (資料下載異常)"
  const CalcFailedText: string := " (計算失敗)"

  /** The sign `{x:+.1f}` writes: `-` for a negative number, `+` otherwise
      (NaN renders as `+nan`). */
  function SignChar(v: Val): char {
    if v.Num? && v.r < 0.0 then '-' else '+'
  }

  /** The tag text `get_percent_change_str` returns. */
  function LabelText(l: ChangeLabel, n: Numerals): string {
    match l
    case NotApplicable => " (N/A)"
    case Change(p) => " " + [SignChar(p)] + n.onePlace(p) + "%"
  }

  /** A rise or no change is labelled `+`, a fall `-`, for a non-zero
      previous value. */
  lemma LabelSign(c: real, p: real, n: Numerals)
    requires p != 0.0
    ensures var t := LabelText(PercentChange(Some(Num(c)), Some(Num(p))), n);
      && |t| >= 3 && t[0] == ' ' && t[|t| - 1] == '%'
      && (t[1] == '+' <==> c >= p)
      && (t[1] == '-' <==> c < p)
  {
    PercentSign(c, p);
  }

  function Header(b: Block): string {
    "📈 " + b.name + " (" + b.ticker + ")"
  }

  function PriceLine(v: KdValues, n: Numerals): string {
    "價格：" + n.price(v.price) + LabelText(PercentChange(Some(Num(v.price)), Some(Num(v.prevPrice))), n)
  }

  function KLine(v: KdValues, n: Numerals): string {
    "K值：" + n.twoPlaces(v.k) + LabelText(PercentChange(Some(v.k), Some(v.prevK)), n) + KMarker(Classify(v.k))
  }

  function DLine(v: KdValues, n: Numerals): string {
    "D值：" + n.twoPlaces(v.d) + LabelText(PercentChange(Some(v.d), Some(v.prevD)), n) + DMarker(Classify(v.d))
  }

  function BodyText(body: Body, n: Numerals): string {
    match body
    case DownloadError => DownloadErrorText
    case CalcFailed => CalcFailedText
    case Quote(v) => PriceLine(v, n) + "\n" + KLine(v, n) + "\n" + DLine(v, n)
  }

  /** The number renderings never break a line. */
  ghost predicate InlineNumerals(n: Numerals) {
    && (forall x :: '\n' !in n.price(x))
    && (forall v :: '\n' !in n.twoPlaces(v))
    && (forall v :: '\n' !in n.onePlace(v))
  }

  lemma LabelInline(l: ChangeLabel, n: Numerals)
    requires InlineNumerals(n)
    ensures '\n' !in LabelText(l, n)
  {
  }

  /** A quote body reads back, line by line, as the price line, the %K line
      and the %D line, in that order. */
  lemma QuoteBodyLines(v: KdValues, n: Numerals)
    requires InlineNumerals(n)
    ensures Split(BodyText(Quote(v), n), '\n') == [PriceLine(v, n), KLine(v, n), DLine(v, n)]
  {
    var lines := [PriceLine(v, n), KLine(v, n), DLine(v, n)];
    LabelInline(PercentChange(Some(Num(v.price)), Some(Num(v.prevPrice))), n);
    LabelInline(PercentChange(Some(v.k), Some(v.prevK)), n);
    LabelInline(PercentChange(Some(v.d), Some(v.prevD)), n);
    assert '\n' !in KMarker(Classify(v.k)) && '\n' !in DMarker(Classify(v.d));
    assert forall i | 0 <= i < 3 :: '\n' !in lines[i];
    assert Join(lines, "\n") == BodyText(Quote(v), n) by {
      assert Join(lines[1..][1..], "\n") == DLine(v, n) by {
        assert lines[1..][1..] == [DLine(v, n)];
      }
      assert Join(lines[1..], "\n") == KLine(v, n) + "\n" + DLine(v, n);
    }
    SplitJoin(lines, '\n');
  }

  /** `f"{report_header}\n{report_body}"` */
  function BlockText(b: Block, n: Numerals): (t: string)
    ensures Header(b) + "\n" <= t
  {
    Header(b) + "\n" + BodyText(b.body, n)
  }

  /** The lines a body is made of: one fixed failure text, or the price,
      %K and %D lines. */
  function BodyLines(body: Body, n: Numerals): (ls: seq<string>)
    ensures |ls| == (if body.Quote? then 3 else 1)
  {
    match body
    case DownloadError => [DownloadErrorText]
    case CalcFailed => [CalcFailedText]
    case Quote(v) => [PriceLine(v, n), KLine(v, n), DLine(v, n)]
  }

  /** A header line in front of text that reads back as `body` reads back
      as the header followed by `body`. */
  lemma HeaderThenLines(h: string, body: seq<string>, text: string)
    requires '\n' !in h && |body| > 0 && forall i | 0 <= i < |body| :: '\n' !in body[i]
    requires Join(body, "\n") == text
    ensures Split(h + "\n" + text, '\n') == [h] + body
  {
    var lines := [h] + body;
    assert lines[1..] == body;
    assert Join(lines, "\n") == h + "\n" + text;
    SplitJoin(lines, '\n');
  }

  /** A block reads back, line by line, as its header followed by the lines
      of its body: the failure text for a download error or a failed
      calculation, and the price, %K and %D lines for a quote. */
  lemma BlockLines(b: Block, n: Numerals)
    requires '\n' !in b.name && '\n' !in b.ticker && InlineNumerals(n)
    ensures Split(BlockText(b, n), '\n') == [Header(b)] + BodyLines(b.body, n)
  {
    assert '\n' !in Header(b);
    var body := BodyLines(b.body, n);
    if b.body.Quote? {
      QuoteBodyLines(b.body.values, n);
      assert Join(body, "\n") == BodyText(b.body, n);
    } else {
      assert Join(body, "\n") == BodyText(b.body, n);
    }
    HeaderThenLines(Header(b), body, BodyText(b.body, n));
  }

  /** Reading the %K line back: it ends with the overbought tag exactly
      when %K is above 80 and with the oversold tag exactly when it is
      below 20; at exactly 80 or 20, or for NaN, it carries neither. */
  lemma KLineMarks(v: KdValues, n: Numerals)
    ensures EndsWith(KLine(v, n), KOverboughtMark) <==> Above(v.k, OverboughtLevel)
    ensures EndsWith(KLine(v, n), KOversoldMark) <==> Below(v.k, OversoldLevel)
  {
    var tag := LabelText(PercentChange(Some(v.k), Some(v.prevK)), n);
    var pre := "K值：" + n.twoPlaces(v.k) + tag;
    var line := KLine(v, n);
    var z := Classify(v.k);
    assert line == pre + KMarker(z);
    EndsWithAt(line, KOverboughtMark, 1);
    EndsWithAt(line, KOverboughtMark, 2);
    EndsWithAt(line, KOversoldMark, 1);
    EndsWithAt(line, KOversoldMark, 2);
    match z
    case Overbought =>
      EndsWithAppended(pre, KOverboughtMark);
      assert line[|line| - 2] == KOverboughtMark[|KOverboughtMark| - 2];
    case Oversold =>
      EndsWithAppended(pre, KOversoldMark);
      assert line[|line| - 2] == KOversoldMark[|KOversoldMark| - 2];
    case Neutral =>
      assert line == pre;
      if tag == " (N/A)" {
        assert line[|line| - 2] == 'A';
      } else {
        assert line[|line| - 1] == '%';
      }
  }

  /** Reading the %D line back: it ends with the bare overbought or
      oversold sign exactly when %D is above 80 or below 20. */
  lemma DLineMarks(v: KdValues, n: Numerals)
    ensures EndsWith(DLine(v, n), DOverboughtMark) <==> Above(v.d, OverboughtLevel)
    ensures EndsWith(DLine(v, n), DOversoldMark) <==> Below(v.d, OversoldLevel)
  {
    var tag := LabelText(PercentChange(Some(v.d), Some(v.prevD)), n);
    var pre := "D值：" + n.twoPlaces(v.d) + tag;
    var line := DLine(v, n);
    var z := Classify(v.d);
    assert line == pre + DMarker(z);
    EndsWithAt(line, DOverboughtMark, 1);
    EndsWithAt(line, DOversoldMark, 1);
    match z
    case Overbought =>
      EndsWithAppended(pre, DOverboughtMark);
      assert line[|line| - 1] == DOverboughtMark[|DOverboughtMark| - 1];
    case Oversold =>
      EndsWithAppended(pre, DOversoldMark);
      assert line[|line| - 1] == DOversoldMark[|DOversoldMark| - 1];
    case Neutral =>
      assert line == pre;
      assert line[|line| - 1] == tag[|tag| - 1];
  }

  // ---------------------------------------------------------------------
  // The report loop

  /** What `stock_info[ticker]` holds. */
  datatype Info = Info(name: string, params: KdParams)

  function InfoOf(e: StockEntry): Info {
    Info(e.name, e.params)
  }

  /** `ticker_list`: the configured tickers in file order, repeats kept. */
  function Tickers(entries: seq<StockEntry>): (ts: seq<string>)
    ensures |ts| == |entries| && forall i | 0 <= i < |entries| :: ts[i] == entries[i].ticker
  {
    seq(|entries|, i requires 0 <= i < |entries| => entries[i].ticker)
  }

  /** `stock_info`, filled by `stock_info[ticker] = …` for each entry in
      order, so that a later entry with the same ticker overwrites an
      earlier one. */
  function StockInfo(entries: seq<StockEntry>): (m: map<string, Info>)
    ensures forall i | 0 <= i < |entries| :: entries[i].ticker in m
  {
    if |entries| == 0 then map[]
    else
      var e := entries[|entries| - 1];
      StockInfo(entries[..|entries| - 1])[e.ticker := InfoOf(e)]
  }

  /** Index `j` holds the last entry with ticker `t`. */
  ghost predicate LastWithTicker(entries: seq<StockEntry>, t: string, j: int) {
    && 0 <= j < |entries|
    && entries[j].ticker == t
    && forall j' | j < j' < |entries| :: entries[j'].ticker != t
  }

  /** The dictionary's keys are exactly the configured tickers. */
  lemma {:induction false} StockInfoKeys(entries: seq<StockEntry>, t: string)
    ensures t in StockInfo(entries) <==> exists i | 0 <= i < |entries| :: entries[i].ticker == t
    decreases |entries|
  {
    if |entries| > 0 {
      var init := entries[..|entries| - 1];
      var e := entries[|entries| - 1];
      assert StockInfo(entries) == StockInfo(init)[e.ticker := InfoOf(e)];
      StockInfoKeys(init, t);
      if t != e.ticker {
        if t in StockInfo(init) {
          var i :| 0 <= i < |init| && init[i].ticker == t;
          assert entries[i].ticker == t;
        }
        if exists i | 0 <= i < |entries| :: entries[i].ticker == t {
          var i :| 0 <= i < |entries| && entries[i].ticker == t;
          assert init[i].ticker == t;
        }
      }
    }
  }

  /** Each ticker maps to the name and parameters of the last entry that
      uses it: for a ticker configured twice, the later line wins. */
  lemma {:induction false} StockInfoLastWins(entries: seq<StockEntry>, t: string)
    requires t in StockInfo(entries)
    ensures exists j :: LastWithTicker(entries, t, j) && StockInfo(entries)[t] == InfoOf(entries[j])
    decreases |entries|
  {
    var init := entries[..|entries| - 1];
    var e := entries[|entries| - 1];
    assert StockInfo(entries) == StockInfo(init)[e.ticker := InfoOf(e)];
    if t == e.ticker {
      assert LastWithTicker(entries, t, |entries| - 1);
    } else {
      StockInfoLastWins(init, t);
      var j :| LastWithTicker(init, t, j) && StockInfo(init)[t] == InfoOf(init[j]);
      assert LastWithTicker(entries, t, j);
    }
  }

  /** With no ticker configured twice, every ticker maps to its own entry. */
  lemma StockInfoDistinct(entries: seq<StockEntry>, i: int)
    requires forall a, b | 0 <= a < b < |entries| :: entries[a].ticker != entries[b].ticker
    requires 0 <= i < |entries|
    ensures StockInfo(entries)[entries[i].ticker] == InfoOf(entries[i])
  {
    var t := entries[i].ticker;
    StockInfoLastWins(entries, t);
    var j :| LastWithTicker(entries, t, j) && StockInfo(entries)[t] == InfoOf(entries[j]);
  }

  /** The downloaded frame: `all_data.empty`, or per-ticker rows that can
      be looked up (a missing key is the `KeyError` path). */
  datatype Download = NoData | Frame(columns: map<string, seq<Row>>)

  /** One pass of the loop in `main` for one ticker. */
  function BlockFor(info: map<string, Info>, columns: map<string, seq<Row>>,
                    stoch: (seq<Bar>, KdParams) -> Option<StochOut>, ticker: string): (b: Block)
    requires ticker in info
    ensures b.ticker == ticker && b.name == info[ticker].name
    ensures b.body.DownloadError? <==> ticker !in columns
    ensures b.body.CalcFailed? <==>
      ticker in columns && CalculateKd(columns[ticker], info[ticker].params, stoch).Failure?
    ensures b.body.Quote? ==>
      ticker in columns && CalculateKd(columns[ticker], info[ticker].params, stoch) == Success(b.body.values)
  {
    var i := info[ticker];
    if ticker !in columns then Block(i.name, ticker, DownloadError)
    else
      match CalculateKd(columns[ticker], i.params, stoch)
      case Failure(_) => Block(i.name, ticker, CalcFailed)
      case Success(v) => Block(i.name, ticker, Quote(v))
  }

  /** `for ticker in ticker_list: … final_report_blocks.append(block)`:
      every pass appends exactly one block. */
  function BuildBlocks(info: map<string, Info>, columns: map<string, seq<Row>>,
                       stoch: (seq<Bar>, KdParams) -> Option<StochOut>, tickers: seq<string>): (blocks: seq<Block>)
    requires forall i | 0 <= i < |tickers| :: tickers[i] in info
    ensures |blocks| == |tickers|
    ensures forall i | 0 <= i < |tickers| :: blocks[i] == BlockFor(info, columns, stoch, tickers[i])
  {
    if |tickers| == 0 then []
    else BuildBlocks(info, columns, stoch, tickers[..|tickers| - 1]) + [BlockFor(info, columns, stoch, tickers[|tickers| - 1])]
  }

  /** The report blocks: one per configured entry, in configuration order,
      each headed by that entry's ticker, whatever happened to the others. */
  function ReportBlocks(entries: seq<StockEntry>, columns: map<string, seq<Row>>,
                        stoch: (seq<Bar>, KdParams) -> Option<StochOut>): (blocks: seq<Block>)
    ensures |blocks| == |entries|
    ensures forall i | 0 <= i < |entries| ::
      blocks[i].ticker == entries[i].ticker && blocks[i] == BlockFor(StockInfo(entries), columns, stoch, entries[i].ticker)
  {
    BuildBlocks(StockInfo(entries), columns, stoch, Tickers(entries))
  }

  /** With no ticker configured twice, each block carries its own entry's
      name and is computed with its own entry's parameters. */
  lemma ReportBlocksDistinct(entries: seq<StockEntry>, columns: map<string, seq<Row>>,
                             stoch: (seq<Bar>, KdParams) -> Option<StochOut>, i: int)
    requires forall a, b | 0 <= a < b < |entries| :: entries[a].ticker != entries[b].ticker
    requires 0 <= i < |entries|
    ensures var b := ReportBlocks(entries, columns, stoch)[i];
      && b.name == entries[i].name
      && (b.body.Quote? ==> CalculateKd(columns[entries[i].ticker], entries[i].params, stoch) == Success(b.body.values))
      && (b.body.CalcFailed? ==> CalculateKd(columns[entries[i].ticker], entries[i].params, stoch).Failure?)
  {
    StockInfoDistinct(entries, i);
  }

  // ---------------------------------------------------------------------
  // The final message

  function BlockTexts(blocks: seq<Block>, n: Numerals): (ts: seq<string>)
    ensures |ts| == |blocks| && forall i | 0 <= i < |blocks| :: ts[i] == BlockText(blocks[i], n)
  {
    seq(|blocks|, i requires 0 <= i < |blocks| => BlockText(blocks[i], n))
  }

  /** `"\n\n".join(final_report_blocks)` */
  function DataReport(blocks: seq<Block>, n: Numerals): string {
    Join(BlockTexts(blocks, n), "\n\n")
  }

  /** Appending a block to the list appends a blank line and its text to
      the report: blocks appear in the report in list order. */
  lemma DataReportSnoc(blocks: seq<Block>, b: Block, n: Numerals)
    requires |blocks| > 0
    ensures DataReport(blocks + [b], n) == DataReport(blocks, n) + "\n\n" + BlockText(b, n)
  {
    assert BlockTexts(blocks + [b], n) == BlockTexts(blocks, n) + [BlockText(b, n)];
    JoinSnoc(BlockTexts(blocks, n), BlockText(b, n), "\n\n");
  }

  const SummaryHeader: string := "🧠 **AI 市場總結**\n"
  const DetailsBanner: string := "\n—————\n**詳細數據**\n—————\n"

  /** Python truthiness of an optional string: present and non-empty. */
  predicate Truthy(s: Option<string>) {
    s.Some? && s.value != ""
  }

  /** The message sent: the data report alone when there is no summary,
      otherwise the summary section, the details banner and the data report. */
  function FinalMessage(report: string, summary: Option<string>): (m: string)
    ensures !Truthy(summary) ==> m == report
    ensures EndsWith(m, report)
    ensures Truthy(summary) ==>
      && SummaryHeader + summary.value + "\n" <= m
      && EndsWith(m, DetailsBanner + report)
      && |m| == |SummaryHeader| + |summary.value| + 1 + |DetailsBanner| + |report|
  {
    if Truthy(summary) then
      var m := SummaryHeader + summary.value + "\n" + DetailsBanner + report;
      EndsWithAppended(SummaryHeader + summary.value + "\n" + DetailsBanner, report);
      assert m == SummaryHeader + summary.value + "\n" + (DetailsBanner + report);
      EndsWithAppended(SummaryHeader + summary.value + "\n", DetailsBanner + report);
      m
    else
      EndsWithAppended("", report);
      assert "" + report == report;
      report
  }

  // ---------------------------------------------------------------------
  // One run of `main`

  const ReportTitle: string := "每日股市通報"
  const NoDataText: string := "錯誤：無法下載任何 yfinance 資料。"

  /** A notification handed to ntfy: topic, title and body. */
  datatype Notice = Notice(topic: string, title: string, message: string)

  datatype RunOutcome =
    | MissingSecrets
    | NoMarketData(alert: Notice)
    | NothingToReport
    | Delivered(notice: Notice)

  /** `main` after the stock list is loaded. `topic` and `apiKey` are the
      two environment variables, `download` the batch download, `stoch` the
      oscillator and `summarize` the summary service called with the key and
      the data report. */
  function Run(entries: seq<StockEntry>, topic: Option<string>, apiKey: Option<string>, download: Download,
               stoch: (seq<Bar>, KdParams) -> Option<StochOut>, summarize: (string, string) -> Option<string>,
               n: Numerals): (out: RunOutcome)
    ensures out == MissingSecrets <==> !Truthy(topic) || !Truthy(apiKey)
    ensures out.NoMarketData? <==> Truthy(topic) && Truthy(apiKey) && download.NoData?
    ensures out.NoMarketData? ==> out.alert == Notice(topic.value, ReportTitle, NoDataText)
    ensures out.NothingToReport? <==> Truthy(topic) && Truthy(apiKey) && download.Frame? && |entries| == 0
    ensures out.Delivered? ==>
      var report := DataReport(ReportBlocks(entries, download.columns, stoch), n);
      && out.notice.topic == topic.value
      && out.notice.title == ReportTitle
      && out.notice.message == FinalMessage(report, summarize(apiKey.value, report))
  {
    if !Truthy(topic) || !Truthy(apiKey) then MissingSecrets
    else
      match download
      case NoData => NoMarketData(Notice(topic.value, ReportTitle, NoDataText))
      case Frame(columns) =>
        var blocks := ReportBlocks(entries, columns, stoch);
        var report := DataReport(blocks, n);
        var summary := summarize(apiKey.value, report);
        if |blocks| == 0 then NothingToReport
        else Delivered(Notice(topic.value, ReportTitle, FinalMessage(report, summary)))
  }

  /** What a delivered notification says: the summary header and the
      summary first whenever the summary is non-empty, the data report
      last, and the bare data report when there is no summary. */
  lemma DeliveredMessage(entries: seq<StockEntry>, topic: Option<string>, apiKey: Option<string>, download: Download,
                         stoch: (seq<Bar>, KdParams) -> Option<StochOut>, summarize: (string, string) -> Option<string>,
                         n: Numerals)
    requires Run(entries, topic, apiKey, download, stoch, summarize, n).Delivered?
    ensures var m := Run(entries, topic, apiKey, download, stoch, summarize, n).notice.message;
      var report := DataReport(ReportBlocks(entries, download.columns, stoch), n);
      var summary := summarize(apiKey.value, report);
      && EndsWith(m, report)
      && (!Truthy(summary) ==> m == report)
      && (Truthy(summary) ==> SummaryHeader + summary.value + "\n" <= m && EndsWith(m, DetailsBanner + report))
  {
  }
}

=== FILE: sequences.dfy ===
/** Keeping the elements of a sequence that a partial map accepts, in order:
    the shape of both `dropna()` on price rows and of collecting the accepted
    lines of the stock list. */
module Sequences {
  import opened Wrappers

  /** The images under `f` of the elements `f` accepts, in their original
      order. */
  function FilterMap<A, B>(xs: seq<A>, f: A -> Option<B>): (ys: seq<B>)
    ensures |ys| <= |xs|
  {
    if |xs| == 0 then []
    else
      var last := f(xs[|xs| - 1]);
      FilterMap(xs[..|xs| - 1], f) + (if last.Some? then [last.value] else [])
  }

  /** Filtering two stretches one after the other keeps both results in the
      same order. */
  lemma {:induction false} FilterMapAppend<A, B>(a: seq<A>, b: seq<A>, f: A -> Option<B>)
    ensures FilterMap(a + b, f) == FilterMap(a, f) + FilterMap(b, f)
    decreases |b|
  {
    if |b| == 0 {
      assert a + b == a;
    } else {
      assert (a + b)[..|a + b| - 1] == a + b[..|b| - 1];
      FilterMapAppend(a, b[..|b| - 1], f);
    }
  }

  /** A value is kept exactly when some element is accepted as that value. */
  lemma {:induction false} FilterMapMember<A, B>(xs: seq<A>, f: A -> Option<B>, y: B)
    ensures y in FilterMap(xs, f) <==> exists i | 0 <= i < |xs| :: f(xs[i]) == Some(y)
    decreases |xs|
  {
    if |xs| > 0 {
      var init := xs[..|xs| - 1];
      FilterMapMember(init, f, y);
      if exists i | 0 <= i < |init| :: f(init[i]) == Some(y) {
        var i :| 0 <= i < |init| && f(init[i]) == Some(y);
        assert xs[i] == init[i];
      }
      if exists i | 0 <= i < |xs| :: f(xs[i]) == Some(y) {
        var i :| 0 <= i < |xs| && f(xs[i]) == Some(y);
        if i < |init| {
          assert init[i] == xs[i];
        }
      }
    }
  }

  /** Nothing is kept exactly when no element is accepted. */
  lemma {:induction false} FilterMapNone<A, B>(xs: seq<A>, f: A -> Option<B>)
    ensures FilterMap(xs, f) == [] <==> forall i | 0 <= i < |xs| :: f(xs[i]).None?
    decreases |xs|
  {
    if |xs| > 0 {
      var init := xs[..|xs| - 1];
      FilterMapNone(init, f);
      assert forall i | 0 <= i < |init| :: init[i] == xs[i];
    }
  }

  /** When every element is accepted, nothing is dropped and positions are
      kept. */
  lemma {:induction false} FilterMapAll<A, B>(xs: seq<A>, f: A -> Option<B>)
    requires forall i | 0 <= i < |xs| :: f(xs[i]).Some?
    ensures |FilterMap(xs, f)| == |xs|
    ensures forall i | 0 <= i < |xs| :: FilterMap(xs, f)[i] == f(xs[i]).value
    decreases |xs|
  {
    if |xs| > 0 {
      var init := xs[..|xs| - 1];
      assert forall i | 0 <= i < |init| :: init[i] == xs[i];
      FilterMapAll(init, f);
    }
  }
}

=== FILE: stock_list.dfy ===
/** The stock list file: one monitored instrument per line, written as
    `name, ticker, fastk, slowk, slowd`; blank lines and `#` comments are
    ignored and malformed lines are skipped with a warning. */
module StockList {
  import opened Wrappers
  import opened Text
  import opened IntLiteral
  import opened Sequences

  /** The three periods handed to the stochastic oscillator. */
  datatype KdParams = KdParams(fastk: int, slowk: int, slowd: int)

  datatype StockEntry = StockEntry(name: string, ticker: string, params: KdParams)

  /** What the reader makes of one line of the file. */
  datatype LineKind =
    | Blank
    | Comment
    | WrongFieldCount(fields: nat)
    | BadParams
    | Accepted(entry: StockEntry)

  /** The two ways loading ends the program: the file cannot be read, or it
      yields no usable entry. */
  datatype LoadError = Unreadable | NoValidEntries

  /** The first character of `raw` that is not whitespace is `c`. */
  ghost predicate StartsVisiblyWith(raw: string, c: char) {
    exists j {:trigger raw[..j]} | 0 <= j < |raw| :: AllSpace(raw[..j]) && raw[j] == c
  }

  lemma StartsVisiblyWithStrip(raw: string, c: char)
    requires !IsSpace(c)
    ensures StartsVisiblyWith(raw, c) <==> Strip(raw) != [] && Strip(raw)[0] == c
  {
    var r := Strip(raw);
    StripRemovesSpace(raw);
    if r != [] && r[0] == c {
      var i :| StripOf(raw, r, i);
      assert raw[i] == r[0];
      assert AllSpace(raw[..i]);
    }
    if StartsVisiblyWith(raw, c) {
      var j :| 0 <= j < |raw| && AllSpace(raw[..j]) && raw[j] == c;
      StripFirst(raw, j);
    }
  }

  function StripAll(parts: seq<string>): (r: seq<string>)
    ensures |r| == |parts|
    ensures forall i | 0 <= i < |parts| :: r[i] == Strip(parts[i])
  {
    seq(|parts|, i requires 0 <= i < |parts| => Strip(parts[i]))
  }

  /** One line of the file: stripped, skipped when blank or a comment, split
      on commas with every field stripped, and accepted only with exactly
      five fields whose last three are integers. */
  function ParseLine(raw: string): (r: LineKind)
    ensures r.Accepted? ==>
      && Stripped(r.entry.name) && ',' !in r.entry.name
      && Stripped(r.entry.ticker) && ',' !in r.entry.ticker
  {
    var line := Strip(raw);
    if line == [] then Blank
    else if line[0] == '#' then Comment
    else
      var fields := Split(line, ',');
      StripAllKeepsOut(fields, ',');
      ParseFields(StripAll(fields))
  }

  /** Stripping fields that lack a character cannot introduce it. */
  lemma StripAllKeepsOut(parts: seq<string>, c: char)
    requires forall i | 0 <= i < |parts| :: c !in parts[i]
    ensures forall i | 0 <= i < |parts| :: c !in StripAll(parts)[i]
  {
    forall i | 0 <= i < |parts|
      ensures c !in StripAll(parts)[i]
    {
      StripSubset(parts[i], c);
    }
  }

  /** The verdict on the stripped fields of a line that is neither blank nor
      a comment. */
  function ParseFields(parts: seq<string>): (r: LineKind)
    ensures !r.Blank? && !r.Comment?
    ensures r.WrongFieldCount? <==> |parts| != 5
    ensures r.WrongFieldCount? ==> r.fields == |parts|
    ensures r.Accepted? <==>
      |parts| == 5 && ParseInt(parts[2]).Some? && ParseInt(parts[3]).Some? && ParseInt(parts[4]).Some?
    ensures r.Accepted? ==> r.entry.name == parts[0] && r.entry.ticker == parts[1]
    ensures r.Accepted? ==>
      r.entry.params == KdParams(ParseInt(parts[2]).value, ParseInt(parts[3]).value, ParseInt(parts[4]).value)
  {
    if |parts| != 5 then WrongFieldCount(|parts|)
    else
      var fastk := ParseInt(parts[2]);
      var slowk := ParseInt(parts[3]);
      var slowd := ParseInt(parts[4]);
      if fastk.Some? && slowk.Some? && slowd.Some? then
        Accepted(StockEntry(parts[0], parts[1], KdParams(fastk.value, slowk.value, slowd.value)))
      else BadParams
  }

  /** A line is skipped as blank exactly when it is all whitespace, and as a
      comment exactly when its first visible character is `#`. */
  lemma ParseLineSkips(raw: string)
    ensures ParseLine(raw).Blank? <==> AllSpace(raw)
    ensures ParseLine(raw).Comment? <==> StartsVisiblyWith(raw, '#')
  {
    StripEmpty(raw);
    StartsVisiblyWithStrip(raw, '#');
  }

  /** A line that is neither blank nor a comment is judged on its fields, of
      which there is one more than there are commas: it is rejected for its
      field count exactly when it does not hold four commas. */
  lemma ParseLineFieldCount(raw: string)
    requires !AllSpace(raw) && !StartsVisiblyWith(raw, '#')
    ensures ParseLine(raw).WrongFieldCount? <==> Count(raw, ',') != 4
    ensures ParseLine(raw).WrongFieldCount? ==> ParseLine(raw).fields == Count(raw, ',') + 1
  {
    var line := Strip(raw);
    StripEmpty(raw);
    StartsVisiblyWithStrip(raw, '#');
    assert line != [] && line[0] != '#';
    ParseInFields(raw);
    StripKeepsCount(raw, ',');
    SplitCount(line, ',');
  }

  lemma ParseInFields(raw: string)
    requires Strip(raw) != [] && Strip(raw)[0] != '#'
    ensures ParseLine(raw) == ParseFields(StripAll(Split(Strip(raw), ',')))
  {
  }

  /** An entry the file can express: fields free of commas and of surrounding
      whitespace, and a name that does not make the line a comment. */
  ghost predicate Expressible(e: StockEntry) {
    && Stripped(e.name) && ',' !in e.name
    && Stripped(e.ticker) && ',' !in e.ticker
    && (e.name == [] || e.name[0] != '#')
  }

  lemma FormatIntFields(n: int)
    ensures Stripped(FormatInt(n)) && ',' !in " " + FormatInt(n)
  {
    var s := FormatInt(n);
    assert forall k | 0 <= k < |s| :: s[k] != ',';
    NoCommaAfterSpace(s);
  }

  /** The fields of the line written for an entry, before stripping. */
  function FormatFields(e: StockEntry): seq<string> {
    [e.name, " " + e.ticker, " " + FormatInt(e.params.fastk),
     " " + FormatInt(e.params.slowk), " " + FormatInt(e.params.slowd)]
  }

  /** The line `name, ticker, fastk, slowk, slowd` for an entry. */
  function FormatLine(e: StockEntry): string {
    Join(FormatFields(e), ",")
  }

  lemma FormatLineVisible(e: StockEntry)
    requires Expressible(e)
    ensures Strip(FormatLine(e)) == FormatLine(e)
    ensures FormatLine(e) != [] && FormatLine(e)[0] != '#'
  {
    var fields := FormatFields(e);
    var last := fields[4];
    assert last[|last| - 1] == FormatInt(e.params.slowd)[|FormatInt(e.params.slowd)| - 1];
    JoinVisible(fields, ",");
    StrippedFixed(FormatLine(e));
  }

  /** Parts joined by a visible separator form a stripped, non-comment line
      when the first part is stripped and not a comment and the last part
      ends visibly. */
  lemma JoinVisible(parts: seq<string>, sep: string)
    requires |parts| >= 2
    requires Stripped(parts[0]) && (parts[0] == [] || parts[0][0] != '#')
    requires sep != [] && !IsSpace(sep[0]) && sep[0] != '#'
    requires parts[|parts| - 1] != [] && !IsSpace(parts[|parts| - 1][|parts[|parts| - 1]| - 1])
    ensures Stripped(Join(parts, sep))
    ensures Join(parts, sep) != [] && Join(parts, sep)[0] != '#'
  {
    var line := Join(parts, sep);
    var f := parts[|parts| - 1];
    JoinEnds(parts, sep);
    assert line == parts[0] + sep + Join(parts[1..], sep);
    if parts[0] == [] {
      assert line[0] == sep[0];
    } else {
      assert line[0] == parts[0][0];
    }
    assert line[|line| - |f|..] == f;
    assert line[|line| - 1] == f[|f| - 1];
  }

  lemma NoCommaAfterSpace(s: string)
    requires ',' !in s
    ensures ',' !in " " + s
  {
    assert forall k | 1 <= k < |" " + s| :: (" " + s)[k] == s[k - 1];
  }

  lemma FormatLineSplit(e: StockEntry)
    requires Expressible(e)
    ensures StripAll(Split(FormatLine(e), ',')) ==
      [e.name, e.ticker, FormatInt(e.params.fastk), FormatInt(e.params.slowk), FormatInt(e.params.slowd)]
  {
    var p := e.params;
    var fields := FormatFields(e);
    FormatIntFields(p.fastk);
    FormatIntFields(p.slowk);
    FormatIntFields(p.slowd);
    NoCommaAfterSpace(e.ticker);
    assert forall i | 0 <= i < |fields| :: ',' !in fields[i];
    SplitJoin(fields, ',');
    assert Split(FormatLine(e), ',') == fields;
    StripPadded(e.name, e.ticker, FormatInt(p.fastk), FormatInt(p.slowk), FormatInt(p.slowd));
  }

  /** Stripping the padded fields of a written line recovers the fields. */
  lemma StripPadded(a: string, b: string, c: string, d: string, f: string)
    requires Stripped(a) && Stripped(b) && Stripped(c) && Stripped(d) && Stripped(f)
    ensures StripAll([a, " " + b, " " + c, " " + d, " " + f]) == [a, b, c, d, f]
  {
    var padded := [a, " " + b, " " + c, " " + d, " " + f];
    var plain := [a, b, c, d, f];
    StrippedFixed(a);
    StripLeadingSpace(b);
    StripLeadingSpace(c);
    StripLeadingSpace(d);
    StripLeadingSpace(f);
    assert forall i | 0 <= i < 5 :: Strip(padded[i]) == plain[i];
    StripAllEach(padded, plain);
  }

  lemma StripAllEach(xs: seq<string>, ys: seq<string>)
    requires |xs| == |ys| && forall i | 0 <= i < |xs| :: Strip(xs[i]) == ys[i]
    ensures StripAll(xs) == ys
  {
  }

  /** Reading the line written for an expressible entry gives that entry
      back. */
  lemma ParseFormatLine(e: StockEntry)
    requires Expressible(e)
    ensures ParseLine(FormatLine(e)) == Accepted(e)
  {
    var p := e.params;
    FormatLineVisible(e);
    ParseInFields(FormatLine(e));
    FormatLineSplit(e);
    ParseFormat(p.fastk);
    ParseFormat(p.slowk);
    ParseFormat(p.slowd);
  }

  /** Every line of the file, classified. */
  function ClassifyLines(lines: seq<string>): (kinds: seq<LineKind>)
    ensures |kinds| == |lines|
    ensures forall i | 0 <= i < |lines| :: kinds[i] == ParseLine(lines[i])
  {
    seq(|lines|, i requires 0 <= i < |lines| => ParseLine(lines[i]))
  }

  /** The entry an accepted line carries. */
  function EntryOf(kind: LineKind): Option<StockEntry> {
    if kind.Accepted? then Some(kind.entry) else None
  }

  /** The entries of the accepted lines, in file order. */
  function AcceptedEntries(kinds: seq<LineKind>): seq<StockEntry> {
    FilterMap(kinds, EntryOf)
  }

  /** `load_stock_list`, with the file given as its lines (or as unreadable):
      the accepted entries in file order, and a fatal error when there are
      none. */
  function LoadStockList(file: Option<seq<string>>): (r: Result<seq<StockEntry>, LoadError>)
    ensures file.None? ==> r == Failure(Unreadable)
    ensures file.Some? ==>
      (r == Failure(NoValidEntries) <==> forall i | 0 <= i < |file.value| :: !ParseLine(file.value[i]).Accepted?)
    ensures r.Success? ==> file.Some? && |r.value| > 0 && r.value == AcceptedEntries(ClassifyLines(file.value))
  {
    match file
    case None => Failure(Unreadable)
    case Some(lines) =>
      var kinds := ClassifyLines(lines);
      FilterMapNone(kinds, EntryOf);
      var es := AcceptedEntries(kinds);
      if es == [] then Failure(NoValidEntries) else Success(es)
  }

  /** Every loaded entry comes from an accepted line of the file, and every
      accepted line contributes its entry. */
  lemma LoadedEntries(lines: seq<string>, e: StockEntry)
    ensures e in AcceptedEntries(ClassifyLines(lines)) <==> exists i | 0 <= i < |lines| :: ParseLine(lines[i]) == Accepted(e)
  {
    var kinds := ClassifyLines(lines);
    FilterMapMember(kinds, EntryOf, e);
    if exists i | 0 <= i < |kinds| :: EntryOf(kinds[i]) == Some(e) {
      var i :| 0 <= i < |kinds| && EntryOf(kinds[i]) == Some(e);
      assert ParseLine(lines[i]) == Accepted(e);
    }
    if exists i | 0 <= i < |lines| :: ParseLine(lines[i]) == Accepted(e) {
      var i :| 0 <= i < |lines| && ParseLine(lines[i]) == Accepted(e);
      assert EntryOf(kinds[i]) == Some(e);
    }
  }

  /** Lines are read independently: the entries of a file are those of its
      first part followed by those of the rest, so adding lines never
      drops or reorders earlier entries. */
  lemma AcceptedLinesAppend(a: seq<string>, b: seq<string>)
    ensures AcceptedEntries(ClassifyLines(a + b)) == AcceptedEntries(ClassifyLines(a)) + AcceptedEntries(ClassifyLines(b))
  {
    ClassifyLinesAppend(a, b);
    FilterMapAppend(ClassifyLines(a), ClassifyLines(b), EntryOf);
  }

  lemma ClassifyLinesAppend(a: seq<string>, b: seq<string>)
    ensures ClassifyLines(a + b) == ClassifyLines(a) + ClassifyLines(b)
  {
    assert forall i | 0 <= i < |a + b| :: (a + b)[i] == if i < |a| then a[i] else b[i - |a|];
  }
}

=== FILE: text.dfy ===
/** The string operations the configuration reader and the report use:
    Python's `str.strip()`, `str.split(sep)` and `sep.join(parts)`. */
module Text {

  /** Python's `str.isspace()` for one character: the ASCII whitespace and
      separator controls plus the Unicode space separators. */
  predicate IsSpace(c: char) {
    || c == ' '
    || ('\t' <= c <= '\r')
    || ('\U{1C}' <= c <= '\U{1F}')
    || c == '\U{85}'
    || c == '\U{A0}'
    || c == '\U{1680}'
    || ('\U{2000}' <= c <= '\U{200A}')
    || c == '\U{2028}'
    || c == '\U{2029}'
    || c == '\U{202F}'
    || c == '\U{205F}'
    || c == '\U{3000}'
  }

  predicate AllSpace(s: string) {
    forall i | 0 <= i < |s| :: IsSpace(s[i])
  }

  /** Neither end of `s` is whitespace: what `strip()` leaves behind. */
  predicate Stripped(s: string) {
    s == [] || (!IsSpace(s[0]) && !IsSpace(s[|s| - 1]))
  }

  /** `r` is `s` with the whitespace run `s[..i]` removed in front and only
      whitespace removed behind. */
  ghost predicate StripOf(s: string, r: string, i: int) {
    && 0 <= i <= i + |r| <= |s|
    && s[i..i + |r|] == r
    && AllSpace(s[..i])
    && AllSpace(s[i + |r|..])
  }

  /** Python's `s.lstrip()` */
  function TrimLeft(s: string): (r: string)
    ensures |r| <= |s|
    ensures r == [] || !IsSpace(r[0])
  {
    if |s| > 0 && IsSpace(s[0]) then TrimLeft(s[1..]) else s
  }

  /** Python's `s.rstrip()` */
  function TrimRight(s: string): (r: string)
    ensures |r| <= |s|
    ensures r == [] || !IsSpace(r[|r| - 1])
  {
    if |s| > 0 && IsSpace(s[|s| - 1]) then TrimRight(s[..|s| - 1]) else s
  }

  /** `lstrip()` removes a leading run of whitespace and keeps the rest. */
  lemma {:induction false} TrimLeftSuffix(s: string)
    ensures TrimLeft(s) == s[|s| - |TrimLeft(s)|..]
    ensures AllSpace(s[..|s| - |TrimLeft(s)|])
    decreases |s|
  {
    if |s| > 0 && IsSpace(s[0]) {
      TrimLeftSuffix(s[1..]);
      var k := |s| - |TrimLeft(s)|;
      assert s[..k] == [s[0]] + s[1..][..k - 1];
    }
  }

  /** `rstrip()` removes a trailing run of whitespace and keeps the rest. */
  lemma {:induction false} TrimRightPrefix(s: string)
    ensures TrimRight(s) == s[..|TrimRight(s)|]
    ensures AllSpace(s[|TrimRight(s)|..])
    decreases |s|
  {
    if |s| > 0 && IsSpace(s[|s| - 1]) {
      TrimRightPrefix(s[..|s| - 1]);
      var k := |TrimRight(s)|;
      assert s[k..] == s[..|s| - 1][k..] + [s[|s| - 1]];
    }
  }

  /** Python's `s.strip()`: the part of `s` between its leading and its
      trailing whitespace. */
  function Strip(s: string): (r: string)
    ensures Stripped(r)
  {
    var l := TrimLeft(s);
    TrimRightPrefix(l);
    TrimRight(l)
  }

  /** What `strip()` removes is whitespace on either side, and only that. */
  lemma StripRemovesSpace(s: string)
    ensures exists i :: StripOf(s, Strip(s), i)
  {
    var l := TrimLeft(s);
    var r := TrimRight(l);
    var i := |s| - |l|;
    TrimLeftSuffix(s);
    TrimRightPrefix(l);
    assert s[i..i + |r|] == r by {
      assert l[..|r|] == r;
      assert s[i..][..|r|] == r;
    }
    assert AllSpace(s[i + |r|..]) by {
      assert s[i + |r|..] == l[|r|..];
    }
    assert Strip(s) == r;
    assert StripOf(s, r, i);
  }

  /** `strip()` leaves nothing exactly when the string is all whitespace. */
  lemma StripEmpty(s: string)
    ensures Strip(s) == [] <==> AllSpace(s)
  {
    var r := Strip(s);
    StripRemovesSpace(s);
    var i :| StripOf(s, r, i);
    if r == [] {
      forall k | 0 <= k < |s|
        ensures IsSpace(s[k])
      {
        if k < i {
          assert s[k] == s[..i][k];
        } else {
          assert s[k] == s[i..][k - i];
        }
      }
    } else {
      assert s[i] == r[0];
    }
  }

  /** The first character of `strip(s)` is the first non-whitespace
      character of `s`. */
  lemma StripFirst(s: string, j: int)
    requires 0 <= j < |s| && AllSpace(s[..j]) && !IsSpace(s[j])
    ensures Strip(s) != [] && Strip(s)[0] == s[j]
  {
    var r := Strip(s);
    StripRemovesSpace(s);
    var i :| StripOf(s, r, i);
    assert forall k | 0 <= k < i :: IsSpace(s[k]) by {
      assert forall k | 0 <= k < i :: s[k] == s[..i][k];
    }
    assert forall k | i + |r| <= k < |s| :: IsSpace(s[k]) by {
      assert forall k | i + |r| <= k < |s| :: s[k] == s[i + |r|..][k - i - |r|];
    }
    assert i <= j < i + |r|;
    assert forall k | 0 <= k < j :: IsSpace(s[k]) by {
      assert forall k | 0 <= k < j :: s[k] == s[..j][k];
    }
    assert s[i] == r[0];
  }

  /** Stripping only removes characters, it never introduces one. */
  lemma StripSubset(s: string, c: char)
    requires c !in s
    ensures c !in Strip(s)
  {
    var r := Strip(s);
    StripRemovesSpace(s);
    var i :| StripOf(s, r, i);
    assert forall k | 0 <= k < |r| :: r[k] == s[i + k];
  }

  /** A single leading space in front of a stripped string is all `strip()`
      removes. */
  lemma StripLeadingSpace(s: string)
    requires Stripped(s)
    ensures Strip(" " + s) == s
  {
    assert (" " + s)[1..] == s;
    assert TrimLeft(" " + s) == TrimLeft(s) == s;
    assert TrimRight(s) == s;
  }

  /** Number of occurrences of `c` in `s`. */
  function Count(s: string, c: char): nat {
    if |s| == 0 then 0 else (if s[0] == c then 1 else 0) + Count(s[1..], c)
  }

  lemma {:induction false} CountAppend(a: string, b: string, c: char)
    ensures Count(a + b, c) == Count(a, c) + Count(b, c)
    decreases |a|
  {
    if |a| > 0 {
      assert (a + b)[0] == a[0];
      assert (a + b)[1..] == a[1..] + b;
      CountAppend(a[1..], b, c);
    } else {
      assert a + b == b;
    }
  }

  lemma {:induction false} CountSpaces(s: string, c: char)
    requires AllSpace(s) && !IsSpace(c)
    ensures Count(s, c) == 0
    decreases |s|
  {
    if |s| > 0 {
      CountSpaces(s[1..], c);
    }
  }

  /** Stripping removes whitespace only, so a visible character keeps its
      number of occurrences. */
  lemma StripKeepsCount(s: string, c: char)
    requires !IsSpace(c)
    ensures Count(Strip(s), c) == Count(s, c)
  {
    var r := Strip(s);
    StripRemovesSpace(s);
    var i :| StripOf(s, r, i);
    assert s == s[..i] + r + s[i + |r|..];
    CountAppend(s[..i] + r, s[i + |r|..], c);
    CountAppend(s[..i], r, c);
    CountSpaces(s[..i], c);
    CountSpaces(s[i + |r|..], c);
  }

  /** Stripping a string that is already stripped changes nothing. */
  lemma StrippedFixed(s: string)
    requires Stripped(s)
    ensures Strip(s) == s
  {
  }

  /** `strip()` is idempotent. */
  lemma StripIdempotent(s: string)
    ensures Strip(Strip(s)) == Strip(s)
  {
    StrippedFixed(Strip(s));
  }

  /** Python's `s.endswith(t)`. */
  predicate EndsWith(s: string, t: string) {
    |t| <= |s| && s[|s| - |t|..] == t
  }

  /** A text ends with whatever was appended last. */
  lemma EndsWithAppended(s: string, t: string)
    ensures EndsWith(s + t, t)
  {
    assert (s + t)[|s + t| - |t|..] == t;
  }

  /** A text ending with `t` agrees with `t` on its last `k` characters. */
  lemma EndsWithAt(s: string, t: string, k: int)
    requires 1 <= k <= |t|
    ensures EndsWith(s, t) ==> s[|s| - k] == t[|t| - k]
  {
    if EndsWith(s, t) {
      assert s[|s| - |t|..][|t| - k] == s[|s| - k];
    }
  }

  /** Python's `sep.join(parts)`. */
  function Join(parts: seq<string>, sep: string): string {
    if |parts| == 0 then ""
    else if |parts| == 1 then parts[0]
    else parts[0] + sep + Join(parts[1..], sep)
  }

  /** The joined text starts with the first part and ends with the last. */
  lemma {:induction false} JoinEnds(parts: seq<string>, sep: string)
    requires |parts| > 0
    ensures parts[0] <= Join(parts, sep)
    ensures EndsWith(Join(parts, sep), parts[|parts| - 1])
    decreases |parts|
  {
    var r := Join(parts, sep);
    var f := parts[|parts| - 1];
    if |parts| == 1 {
      assert r[|r| - |f|..] == f;
    } else {
      var tail := Join(parts[1..], sep);
      JoinEnds(parts[1..], sep);
      assert parts[1..][|parts| - 2] == f;
      assert r == parts[0] + sep + tail;
      assert r[|r| - |f|..] == tail[|tail| - |f|..];
    }
  }

  /** Joining one more part appends the separator and that part: parts keep
      their order in the joined text. */
  lemma {:induction false} JoinSnoc(parts: seq<string>, p: string, sep: string)
    requires |parts| > 0
    ensures Join(parts + [p], sep) == Join(parts, sep) + sep + p
    decreases |parts|
  {
    if |parts| == 1 {
      assert parts + [p] == [parts[0], p];
    } else {
      assert (parts + [p])[1..] == parts[1..] + [p];
      JoinSnoc(parts[1..], p, sep);
    }
  }

  /** A leading separator opens an empty first piece. */
  lemma SplitAfterSep(t: string, sep: char)
    ensures Split([sep] + t, sep) == [""] + Split(t, sep)
  {
    assert ([sep] + t)[1..] == t;
  }

  /** A leading ordinary character belongs to the first piece. */
  lemma SplitAfterChar(c: char, t: string, sep: char)
    requires c != sep
    ensures Split([c] + t, sep) == [[c] + Split(t, sep)[0]] + Split(t, sep)[1..]
  {
    assert ([c] + t)[1..] == t;
  }

  /** Joining after an empty first part starts with the separator. */
  lemma JoinAfterEmpty(parts: seq<string>, sep: string)
    requires |parts| > 1 && parts[0] == []
    ensures Join(parts, sep) == sep + Join(parts[1..], sep)
  {
  }

  /** The first character of a non-empty first part leads the joined text. */
  lemma JoinAfterChar(parts: seq<string>, sep: string)
    requires |parts| > 0 && parts[0] != []
    ensures Join(parts, sep) == [parts[0][0]] + Join([parts[0][1..]] + parts[1..], sep)
  {
    var shorter := [parts[0][1..]] + parts[1..];
    if |parts| > 1 {
      assert shorter[1..] == parts[1..];
    }
  }

  /** A separator in front of a text opens a new, empty first piece. */
  lemma SplitStepSep(rest: seq<string>, t: string, sep: char)
    requires |rest| >= 1 && (forall i | 0 <= i < |rest| :: sep !in rest[i]) && Join(rest, [sep]) == t
    ensures var parts := [""] + rest;
      && (forall i | 0 <= i < |parts| :: sep !in parts[i])
      && Join(parts, [sep]) == [sep] + t
  {
    var parts := [""] + rest;
    assert parts[1..] == rest;
    JoinAfterEmpty(parts, [sep]);
  }

  /** An ordinary character in front of a text extends its first piece. */
  lemma SplitStepChar(c: char, rest: seq<string>, sep: string)
    requires |rest| >= 1
    ensures Join([[c] + rest[0]] + rest[1..], sep) == [c] + Join(rest, sep)
  {
    var parts := [[c] + rest[0]] + rest[1..];
    assert [parts[0][1..]] + parts[1..] == rest by {
      assert parts[0][1..] == rest[0];
      assert parts[1..] == rest[1..];
    }
    JoinAfterChar(parts, sep);
  }

  lemma ExtendFirstPiece(c: char, rest: seq<string>, sep: char)
    requires c != sep
    requires |rest| >= 1 && forall i | 0 <= i < |rest| :: sep !in rest[i]
    ensures forall i | 0 <= i < |rest| :: sep !in ([[c] + rest[0]] + rest[1..])[i]
  {
    var parts := [[c] + rest[0]] + rest[1..];
    forall i | 0 <= i < |rest|
      ensures sep !in parts[i]
    {
      if i > 0 {
        assert parts[i] == rest[i];
      }
    }
  }

  /** Python's `s.split(sep)` for a one-character separator: the pieces
      between consecutive separators, one more piece than there are
      separators. */
  function Split(s: string, sep: char): (parts: seq<string>)
    ensures |parts| >= 1
    ensures forall i | 0 <= i < |parts| :: sep !in parts[i]
    ensures Join(parts, [sep]) == s
  {
    if |s| == 0 then [""]
    else
      var rest := Split(s[1..], sep);
      assert s == [s[0]] + s[1..];
      if s[0] == sep then
        SplitStepSep(rest, s[1..], sep);
        [""] + rest
      else
        SplitStepChar(s[0], rest, [sep]);
        ExtendFirstPiece(s[0], rest, sep);
        [[s[0]] + rest[0]] + rest[1..]
  }

  /** `split` yields one more piece than there are separators. */
  lemma {:induction false} SplitCount(s: string, sep: char)
    ensures |Split(s, sep)| == Count(s, sep) + 1
    decreases |s|
  {
    if |s| > 0 {
      SplitCount(s[1..], sep);
    }
  }

  /** Splitting a joined text gives back the parts, provided no part holds
      the separator: `split` inverts `join`. */
  lemma {:induction false} SplitJoin(parts: seq<string>, sep: char)
    requires |parts| >= 1
    requires forall i | 0 <= i < |parts| :: sep !in parts[i]
    ensures Split(Join(parts, [sep]), sep) == parts
    decreases |parts|, |parts[0]|
  {
    var p := parts[0];
    if p == [] {
      if |parts| > 1 {
        var rest := parts[1..];
        SplitJoin(rest, sep);
        JoinAfterEmpty(parts, [sep]);
        SplitAfterSep(Join(rest, [sep]), sep);
        assert [""] + rest == parts;
      }
    } else {
      var shorter := [p[1..]] + parts[1..];
      forall i | 0 <= i < |shorter|
        ensures sep !in shorter[i]
      {
        if i == 0 {
          assert forall c | c in p[1..] :: c in p;
        } else {
          assert shorter[i] == parts[i];
        }
      }
      SplitJoin(shorter, sep);
      JoinAfterChar(parts, [sep]);
      assert p[0] in p;
      SplitAfterChar(p[0], Join(shorter, [sep]), sep);
      assert p == [p[0]] + p[1..];
      assert [[p[0]] + shorter[0]] + shorter[1..] == parts;
    }
  }
}

=== FILE: wrappers.dfy ===
/** Small failure-carrying datatypes shared by the whole model. */
module Wrappers {

  /** A value that may be absent: Python's `None` versus a present value. */
  datatype Option<+T> = None | Some(value: T)

  /** An outcome that either carries a value or the reason it could not be produced. */
  datatype Result<+R, +E> = Success(value: R) | Failure(error: E)
}
